=== FILE: README.md ===
# News portal: a Dafny model of its session and listing logic

This project models the logic of a small news portal. The portal has a React
front end and a Django back end.

- **Front end.** An axios client attaches the stored access token to each
  request. It answers a 401 with at most one token refresh and one retry.
- **Listing.** The news listing numbers every load with a request counter.
  It ignores the answers of loads that a newer load has superseded.
- **Sign-in page.** It turns the backend's sign-in reply into storage writes,
  a navigation and an error message.
- **Back end, sign-in.** Google sign-in derives a unique username from the
  e-mail address. It splits the display name into first and last name and
  updates returning users.
- **Back end, news.** The news endpoint chooses the newsapi.org endpoint and
  its parameters, and normalises the articles that come back.

Everything is written as immutable datatypes and pure functions. The only
method is the username suffix search, which keeps the source's `while`
loop. Foreign calls become inputs:

- the backend as seen by the client (`server`);
- the refresh endpoint (`refresher`);
- the Google token check (`Verification`);
- newsapi.org (`UpstreamReply`).

`localStorage` is a `map<string, string>`. `window.location.href` is an
optional redirect target.

Modules, one per source concern:

| module | file | models |
|---|---|---|
| `Common` | common.dfy | optional values and JS/Python string truthiness |
| `Text` | text.dfy | Python `str(n)`, `split`, `join` |
| `JsText` | js_text.dfy | JavaScript `trim` and its whitespace set |
| `Browser` | browser.dfy | storage, redirect, axios error shape |
| `ApiClient` | api_client.dfy | frontend/src/api.js |
| `Listing` | listing.dfy | `load` in frontend/src/components/News.jsx, and runs of loads and completions |
| `NewsPage` | news_page.dfy | the handlers and effects of News.jsx that start loads |
| `Login` | login.dfy | frontend/src/components/Login.jsx |
| `Usernames` | usernames.dfy | `safe_username_from_email` in backend/app/views.py |
| `Accounts` | accounts.dfy | `GoogleOAuthView.post` in backend/app/views.py |
| `NewsProxy` | news_proxy.dfy | `NewsView.get` in backend/app/views.py |

Behaviour worth noting:

- A load's id is the counter value *after* the increment (`++ref`), so the
  first load has id 1.
- A failed refresh rejects the caller's promise with the *original* 401
  error, not with the refresh failure.
- When no refresh token is stored, the interceptor passes a 401 on
  unchanged. It clears no storage and does not redirect. For the listing,
  the only caller that can get a 401, the logout then happens in the
  listing's own 401 handler (News.jsx:100-103), which clears all storage
  and redirects to `/login`.
- A 401 seen by the listing clears *all* storage (`localStorage.clear()`),
  even when the load is stale. The interceptor's failed refresh removes only
  `access` and `refresh`.
- A sign-in reply with an access token but no refresh token counts as a
  success. `setItem` stores the text `"undefined"` as the refresh token
  (`Login.MissingRefreshStoresUndefined`), or `"null"` when the token is
  JSON `null` (`Login.NullRefreshStoresNull`). A refresh reply whose
  `access` is missing or `null` likewise stores, and sends as the bearer,
  the text "undefined" or "null".
- The handlers' `load` closures keep the search text of the render that
  created them. A country change, category change or refresh therefore
  sends the previous search text, even though it clears the search box.

## Model

| member | source | states |
|---|---|---|
| `ApiClient.AttachAuth` | frontend/src/api.js:11-15 | With a truthy stored access token, the request carries `Authorization: Bearer <token>` and its other headers are unchanged; otherwise the request is left exactly as it was |
| `ApiClient.AttachAuthIdempotent` | frontend/src/api.js:11-15 | Running the request interceptor twice gives the same request as running it once |
| `ApiClient.Intercept` | frontend/src/api.js:20-44 | Anything but a 401 on an unmarked request passes through untouched. A first 401 marks the request `_retry` before anything else. With no refresh token nothing changes. With one, exactly that token is sent to the refresh endpoint. A successful refresh stores the new access token and re-issues the marked request with the new bearer header. A failed refresh removes `access` and `refresh` only and redirects to `/login`. Only unmarked requests are ever re-issued |
| `ApiClient.Dispatch` | frontend/src/api.js:18-45 | One call through the client sends one or two requests, all to the caller's path, and makes at most one refresh. A second send happens only after a refresh, and only for an unmarked request. A marked request is sent once and never refreshed. The refresh never appears among the sent requests |
| `ApiClient.PassThrough` | frontend/src/api.js:22-43 | A success, a non-401 error, or a 401 on a request already marked `_retry` reaches the caller unchanged, with no refresh, no storage change and no redirect |
| `ApiClient.UnauthorizedWithoutRefreshToken` | frontend/src/api.js:22-43 | A 401 with no stored refresh token rejects with that same error and leaves storage and location unchanged |
| `ApiClient.RefreshFailureLogsOut` | frontend/src/api.js:36-43 | A failed refresh rejects with the original 401, removes exactly `access` and `refresh` while keeping every other key and value, and redirects to `/login` |
| `ApiClient.RefreshSuccessRetriesOnce` | frontend/src/api.js:26-35 | A successful refresh stores the new access token. The request is re-issued exactly once, marked and with the new bearer header. The caller receives the re-issued request's outcome, with no second refresh even if that outcome is another 401 |
| `Listing.Params` | frontend/src/components/News.jsx:62-66 | `q` is sent exactly when non-empty. `country` is the override when truthy, else the page's country. `category` is the override when truthy, else the selected category. Nothing else is sent |
| `Listing.Issue` | frontend/src/components/News.jsx:59-61 | A load increments the counter by exactly one and takes the new value as its id. It raises the loading flag and clears the error, and leaves the articles as they were |
| `Listing.EmptyMessage` | frontend/src/components/News.jsx:83-87 | An empty result shows the search message exactly when the load's search text is non-empty, and the headlines message exactly when it is empty |
| `Listing.FailureMessage` | frontend/src/components/News.jsx:93-98 | An aborted request shows the timeout text. Other failures show the server's `detail`, else the error's `message`, else "Failed to load news" |
| `Listing.Complete` | frontend/src/components/News.jsx:72-107 | A stale completion changes neither articles, error nor loading flag. A fresh one always clears the loading flag. A fresh non-empty list replaces the articles and clears the error. A fresh empty or missing list empties the articles and sets the context message. A fresh failure sets the failure message. A 401 clears all storage and redirects to `/login`, stale or not, and nothing else touches the page state |
| `Listing.ExecuteNumbers` | frontend/src/components/News.jsx:59 | In every run from mount, the k-th load issued has id k + 1 and the counter equals the number of loads issued |
| `Listing.IdsAreUnique` | frontend/src/components/News.jsx:59 | No two loads of a run share an id; later loads have larger ids |
| `Listing.NewestOnlyKeeps` | frontend/src/components/News.jsx:76 | The completions that can still touch the visible state are exactly those of the load whose id equals the counter, the test `currentRequestId !== requestIdRef.current` that returns early for a stale response |
| `Listing.LastIssuedWins` | frontend/src/components/News.jsx:76-106 | After the last load is issued, any interleaving of completions leaves the same visible state (articles, error, loading) as the completions of the newest load alone. The completions of superseded loads never show, in whatever order they arrive |
| `Listing.NewestUnsettledKeepsLoading` | frontend/src/components/News.jsx:104-106 | Until the newest load settles, the page keeps its loading flag, shows no error, and keeps the articles it had when that load was issued |
| `Listing.LoadingClearsOnlyWhenFresh` | frontend/src/components/News.jsx:104-106 | The loading flag goes down only through the completion of the load whose id equals the counter |
| `Listing.LastIssuedWinsAfter` | frontend/src/components/News.jsx:59-106 | For any history of loads and completions from mount, the completions that follow the last load show only what the newest load's completions alone would show, and they issue no load |
| `Listing.SupersededCountryNeverShown` | frontend/src/components/News.jsx:127-135 | The country changes from `us` to `gb` while the `us` load is in flight, and the `gb` answer arrives first. At every step of that run the page shows either no articles or the `gb` articles, never the `us` ones. It ends showing `gb`, not loading and without error |
| `NewsPage.HandleSearch` | frontend/src/components/News.jsx:112-119 | The Search button loads exactly when the search text is not all whitespace. That load has no overrides and sends the search text as `q`. The page keeps its text and filters, and otherwise only starts the load: counter up, loading on, error cleared, articles, storage and init guard kept. A blank text sets "Please enter a search term" and changes nothing else |
| `NewsPage.DebounceFire` | frontend/src/components/News.jsx:221-229 | The debounce timer loads exactly when the trimmed search text has at least one character, with no overrides. The page keeps its text and filters and otherwise only starts the load. Otherwise it changes nothing |
| `NewsPage.SearchAndDebounceAgree` | frontend/src/components/News.jsx:112-119 | The Search button and the debounce timer load for exactly the same texts, and when they load they do the same thing |
| `NewsPage.HandleRefresh` | frontend/src/components/News.jsx:121-125 | Refresh clears the search text and the searched flag and keeps the filters. Its load uses the closure's filters and the previous search text. Apart from starting the load, the listing, storage and init guard are untouched |
| `NewsPage.HandleCountryChange` | frontend/src/components/News.jsx:127-135 | A chosen country becomes the page's country and, when non-empty, the load's `country` parameter at once. The search text and searched flag are reset, but the load still carries the previous search text. Apart from starting the load, the listing, storage and init guard are untouched |
| `NewsPage.HandleCategoryChange` | frontend/src/components/News.jsx:144-152 | A chosen category becomes the page's category and, when non-empty, the load's `category` parameter at once. The search text and searched flag are reset. Apart from starting the load, the listing, storage and init guard are untouched |
| `NewsPage.InitEffect` | frontend/src/components/News.jsx:231-236 | The first run of the mount effect sets the guard and loads with country `us` and category `general`. Later runs do nothing |
| `NewsPage.InitLoadsOnce` | frontend/src/components/News.jsx:231-236 | Running the mount effect again after it has run starts no further load and changes nothing |
| `NewsPage.MountLoadsHeadlines` | frontend/src/components/News.jsx:231-236 | On a fresh page the initial load has id 1 and sends exactly `country=us` and `category=general` |
| `JsText.TrimEmptyIffBlank` | frontend/src/components/News.jsx:223 | `q.trim()` is empty exactly when every character of `q` is JavaScript whitespace |
| `Login.OnSuccess` | frontend/src/components/Login.jsx:10-37 | The credential is posted; home is reached exactly when the reply carries a truthy access token. That path clears the error and stores `access` and `refresh`, the latter unchecked and stringified. It stores `userName` only when the name is truthy and touches no other key. Without an access token nothing is stored and the missing-tokens message is shown. A thrown error shows `detail`, else `message`, else "Login failed" |
| `Login.OnError` | frontend/src/components/Login.jsx:39 | An identity-provider failure shows "Google login failed" and posts nothing, stores nothing and does not navigate |
| `Login.SuccessClearsEarlierError` | frontend/src/components/Login.jsx:12 | An error from an earlier attempt never survives a successful sign-in |
| `Login.MissingRefreshStoresUndefined` | frontend/src/components/Login.jsx:19-21 | A reply with an access token but no refresh token still signs in, and leaves the truthy text "undefined" stored as the refresh token |
| `Login.NullRefreshStoresNull` | frontend/src/components/Login.jsx:19-21 | A reply with an access token and a `null` refresh token still signs in, and leaves the truthy text "null" stored as the refresh token |
| `Browser.StoredText` | frontend/src/api.js:33-34 | A value stored or put into the bearer header is converted with `String(...)`: a string is kept, a missing value becomes "undefined" and `null` becomes "null" |
| `Usernames.LocalPart` | backend/app/views.py:29 | `email.split("@")[0]` is the text before the first `@`, or the whole address when there is none, and contains no `@` |
| `Usernames.Sanitize` | backend/app/views.py:29 | Removing the characters outside `[a-zA-Z0-9._-]` leaves only allowed characters, never lengthens the text, and leaves an already clean text unchanged |
| `Usernames.SanitizeChar` | backend/app/views.py:29 | A single character is kept exactly when it is in `[a-zA-Z0-9._-]` |
| `Usernames.SanitizeAppend` | backend/app/views.py:29 | Removal works piecewise: sanitising a concatenation is concatenating the sanitised parts. Together with `SanitizeChar`, every allowed character is kept, in its original order |
| `Usernames.SanitizeDropsBetween` | backend/app/views.py:29 | `"a!b"` becomes `"ab"`: a removed character does not take its neighbours with it |
| `Usernames.UsernameBase` | backend/app/views.py:29 | The base has 1 to 20 allowed characters. When the sanitised local part is non-empty, the base is exactly its first min(length, 20) characters; otherwise it is `"user"` |
| `Usernames.BaseOfCleanLocalPart` | backend/app/views.py:29 | A local part that is already 1 to 20 allowed characters is used unchanged as the base |
| `Usernames.BaseFallback` | backend/app/views.py:29 | A local part with no allowed character gives the base `"user"` |
| `Text.DecimalInjective` | backend/app/views.py:33 | Distinct numbers have distinct decimal forms, so the suffixes `str(i)` never repeat |
| `Usernames.CandidateInjective` | backend/app/views.py:30-34 | The base and `base + str(i)` for i = 1, 2, ... are pairwise distinct |
| `Usernames.FreeSuffix` | backend/app/views.py:30-35 | The search ends, because each taken candidate is passed at most once and the table is finite. It returns the least attempt number whose candidate is free; every earlier candidate is taken |
| `Usernames.SafeUsernameFromEmail` | backend/app/views.py:28-35 | The loop returns a username that is not taken: the base if free, else `base + str(i)` for the least free i of 1, 2, ... |
| `Usernames.FreeSuffixIsLeast` | backend/app/views.py:30-35 | An attempt number whose candidate is free while all earlier ones are taken is the one the search returns |
| `Text.JoinSplit` | backend/app/views.py:59 | Joining the pieces of `s.split(sep)` with `sep` gives back `s` |
| `Text.SplitTailJoin` | backend/app/views.py:59 | `sep.join(s.split(sep)[1:])` is everything after the first separator |
| `Accounts.NameParts` | backend/app/views.py:57-59 | An empty name gives two empty parts. A name without a space is all first name. With a space, `first` is the text before the first space and `last` everything after it, and `first + " " + last` is the name |
| `Accounts.UpdateNames` | backend/app/views.py:71-74 | A returning user's first and last names are overwritten only by non-empty new values; username and e-mail never change |
| `Accounts.UpdateNamesIdempotent` | backend/app/views.py:71-74 | Signing in again with the same name changes nothing further |
| `Accounts.FindByEmail` | backend/app/views.py:61 | Finds the first user, in table order, with the given e-mail, or reports that there is none |
| `Accounts.SignIn` | backend/app/views.py:44-91 | A missing or empty `id_token` gives 400 "id_token missing". A rejected token gives 400 "Invalid token: ...". A wrong audience gives 400 "Invalid audience". Every rejection leaves the user table unchanged. A present token that verifies with a matching audience always signs in, and nothing else does. The user returned is stored and has the token's e-mail |
| `Accounts.FirstSignInCreatesUser` | backend/app/views.py:61-68 | A first sign-in appends exactly one user with the token's e-mail. Its username is the one `safe_username_from_email` derives from that e-mail, which is new to the table. Its first and last names are the parts of the display name |
| `Accounts.ReturningSignInUpdatesInPlace` | backend/app/views.py:61-75 | A returning user keeps their row and username. Their names are updated from the display name's parts by the non-empty-overwrite rule, and no other row changes |
| `NewsProxy.PlanUpstream` | backend/app/views.py:100-131 | With an empty or absent `q`, it asks top-headlines with `country` (default `us`) and page size 20. An allowed category becomes `category`, a disallowed one becomes `q`, and no category adds neither. With a non-empty `q`, it asks everything, with `q` plus the category when one is given, `sortBy=publishedAt`, `language=en` and page size 20. The API key is always sent |
| `NewsProxy.CategoryAlwaysForwarded` | backend/app/views.py:119-131 | A given category always reaches newsapi.org, as `category` or at the end of the search terms |
| `NewsProxy.Normalize` | backend/app/views.py:151-158 | A kept article keeps its title, description, URL and date. `urlToImage` becomes `image`, and `source.name` becomes `source` (absent when there is no source) |
| `NewsProxy.NormalizeAll` | backend/app/views.py:149-160 | Every article with truthy title and URL appears, normalised, in the output. Every output article comes from such an input article |
| `NewsProxy.NormalizeAllAppend` | backend/app/views.py:150-160 | Normalisation keeps input order: it maps a concatenation piece by piece |
| `NewsProxy.NormalizeAllLength` | backend/app/views.py:150-160 | The output has exactly one article per kept input article |
| `NewsProxy.Get` | backend/app/views.py:99-168 | A missing API key gives 500 and makes no upstream call; otherwise the planned request is made. A transport error, a non-200 status or an `error` key gives 502 with the matching detail text. An `articles` value the comprehension cannot walk (`null`, or an entry that is not an object) gives the catch-all 500 "Unexpected error: ...". A 200 reply without `error` and with usable articles always gives a listing, and only such a reply does. The listing's articles are the normalised upstream list (empty when absent) and its `count` is their number |

## Left out

- React rendering, memoised JSX, CSS, the `react-select` wiring, the view-mode switch, the country and category tables, and the user-name badge of News.jsx: these are presentation only.
- The logout button in News.jsx (lines 266-271): it is UI wiring around `localStorage.clear()` and a redirect, which the listing's 401 path already models.
- `formatDate` (News.jsx:154-161): it depends on `Date` and locale formatting.
- Timers and `AbortController`: an aborted load is a `Failed` outcome whose error is named `CanceledError` or has code `ERR_CANCELED`. The debounce is modelled by its firing rule (`NewsPage.DebounceFire`), not by its 500 ms quiet period or by the cancelling of pending timers. The 6 s, 7 s, 8 s and 10 s timeouts are not modelled.
- Axios transport, the newsapi.org call, and Google ID-token verification are foreign calls. Their results are inputs.
- Django ORM details: `transaction.atomic`, JWT minting in `tokens_for_user`, the `Profile` update, the `id` field, and the `get_full_name` formatting of the reply's `name`. The reply carries the `User` record instead.
- `MeView` and both `home` views are outside the sign-in and news logic.
- Sign-in exceptions other than `ValueError` (for example an absent `email` claim reaching the ORM) are not modelled. The view does not catch them, so Django answers with its own 500 page.
- `NewsProxy.Get`: the catch-all 500 of views.py:166-168 is modelled only for an unwalkable `articles` value. A JSON body that is not an object, and `title` or `url` values that are not strings, are not modelled. A 200 body that is not JSON is modelled as a `RequestException`, giving 502. That holds with requests 2.27 or later; older versions raise a plain `ValueError` and answer 500.
- Logging (`print`, `console.log`) has no effect on behaviour.
- `ApiClient.Dispatch`: calls through the client are modelled one at a time, each over its own snapshot of storage. In the browser, overlapping calls share `localStorage`. Concurrent 401s each start their own refresh (api.js:24-32). Another call's failed refresh (api.js:37-39), or the listing's `localStorage.clear()` (News.jsx:101), can remove the refresh token before this call's interceptor reads it. "At most one refresh" therefore holds per call, not across concurrent calls.
- `Usernames.SafeUsernameFromEmail`: the username lookup is exact string equality on a set. Database collation and concurrent sign-ups racing for the same username are not modelled.
- setup.py, backend/test_backend.py, backend/app/urls.py, frontend/src/App.jsx and frontend/src/components/Navbar.jsx are process orchestration, configuration checks, routing and commented-out UI. None of them is part of this model.

=== FILE: accounts.dfy ===
/** The decision logic of Google sign-in on the backend (`GoogleOAuthView.post`
    in backend/app/views.py): splitting the display name, creating or updating
    the user, and the error replies. Verifying the Google ID token is a call
    into a library; its verdict is an input here. */
module Accounts {
  import opened Common
  import Text
  import Usernames

  /** The fields of Django's `User` that sign-in reads or writes. */
  datatype User = User(username: string, email: string, firstName: string, lastName: string)

  /** What the Google token check returns: a `ValueError` with its message, or the claims. */
  datatype Verification =
    | InvalidToken(reason: string)
    | Verified(aud: Option<string>, email: string, sub: string, name: string)

  /** The reply of the view: an error status with a `detail`, or 200 with the signed-in user. */
  datatype SignInReply =
    | Rejected(status: nat, detail: string)
    | SignedIn(user: User)

  const IdTokenMissing := "id_token missing"
  const InvalidAudience := "Invalid audience"
  const InvalidTokenPrefix := "Invalid token: "

  /** `first` and `last` as computed from the display name:
      `name.split(" ")[0]` and `" ".join(name.split(" ")[1:])`, each guarded
      by the name being non-empty, the second also by it containing a space. */
  function NameParts(name: string): (parts: (string, string))
    ensures name == "" ==> parts == ("", "")
    ensures ' ' !in name ==> parts == (name, "")
    ensures ' ' in name ==> parts.0 + " " + parts.1 == name
    ensures ' ' in name ==> parts.0 == name[..Text.IndexOf(name, ' ')]
    ensures ' ' in name ==> parts.1 == name[Text.IndexOf(name, ' ') + 1..]
  {
    var first := if name != "" then Text.Split(name, ' ')[0] else "";
    var last := if name != "" && ' ' in name then Text.Join(" ", Text.Split(name, ' ')[1..]) else "";
    Text.SplitHead(name, ' ');
    assert ' ' in name ==> first + " " + last == name by {
      if ' ' in name {
        Text.SplitTailJoin(name, ' ');
        var k := Text.IndexOf(name, ' ');
        assert name == name[..k] + " " + name[k + 1..];
      }
    }
    (first, last)
  }

  /** Updating an existing user: a name part is overwritten only by a
      non-empty new value; the username and e-mail never change. */
  function UpdateNames(u: User, first: string, last: string): (v: User)
    ensures v.username == u.username && v.email == u.email
    ensures v.firstName == (if first != "" then first else u.firstName)
    ensures v.lastName == (if last != "" then last else u.lastName)
  {
    var u1 := if first != "" && u.firstName != first then u.(firstName := first) else u;
    if last != "" && u1.lastName != last then u1.(lastName := last) else u1
  }

  /** Signing in again with the same name changes nothing further. */
  lemma UpdateNamesIdempotent(u: User, first: string, last: string)
    ensures UpdateNames(UpdateNames(u, first, last), first, last) == UpdateNames(u, first, last)
  {
  }

  /** The usernames already in the table. */
  function TakenUsernames(users: seq<User>): (taken: set<string>)
    ensures forall j :: 0 <= j < |users| ==> users[j].username in taken
    ensures forall name :: name in taken ==> exists j :: 0 <= j < |users| && users[j].username == name
  {
    set u | u in users :: u.username
  }

  /** The position of the first user with this e-mail (`filter(email=...).first()`). */
  function FindByEmail(users: seq<User>, email: string): (k: Option<nat>)
    ensures k.Some? ==> k.value < |users| && users[k.value].email == email
    ensures k.Some? ==> forall j :: 0 <= j < k.value ==> users[j].email != email
    ensures k.None? ==> forall j :: 0 <= j < |users| ==> users[j].email != email
  {
    if |users| == 0 then None
    else if users[0].email == email then Some(0)
    else
      match FindByEmail(users[1..], email)
      case None => None
      case Some(k) => Some(k + 1)
  }

  /** One sign-in request: `idToken` is the posted `id_token` (absent or empty
      means missing), `clientId` the configured Google client id, `check` the
      verdict of the token check, `users` the user table in primary-key order.
      Returns the reply and the user table afterwards. */
  function SignIn(idToken: Option<string>, clientId: string, check: Verification, users: seq<User>)
    : (r: (SignInReply, seq<User>))
    ensures !Truthy(idToken) ==> r == (Rejected(400, IdTokenMissing), users)
    ensures r.0.Rejected? ==> r.0.status == 400 && r.1 == users
    ensures check.InvalidToken? && Truthy(idToken) ==> r.0 == Rejected(400, InvalidTokenPrefix + check.reason)
    ensures Truthy(idToken) && check.Verified? && check.aud != Some(clientId) ==> r.0 == Rejected(400, InvalidAudience)
    ensures check.Verified? && check.aud != Some(clientId) ==> r.0.Rejected?
    // A present token that verifies for this client always signs in, and nothing else does.
    ensures r.0.SignedIn? <==> Truthy(idToken) && check.Verified? && check.aud == Some(clientId)
    ensures r.0.SignedIn? ==> r.0.user.email == check.email && r.0.user in r.1
  {
    if !Truthy(idToken) then (Rejected(400, IdTokenMissing), users)
    else
      match check
      case InvalidToken(reason) => (Rejected(400, InvalidTokenPrefix + reason), users)
      case Verified(aud, email, sub, name) =>
        if aud != Some(clientId) then (Rejected(400, InvalidAudience), users)
        else
          var (first, last) := NameParts(name);
          match FindByEmail(users, email)
          case None =>
            var u := User(Usernames.FreeUsername(email, TakenUsernames(users)), email, first, last);
            (SignedIn(u), users + [u])
          case Some(k) =>
            var u := UpdateNames(users[k], first, last);
            assert users[k := u][k] == u;
            (SignedIn(u), users[k := u])
  }

  /** A first sign-in appends exactly one user with the token's e-mail. Its
      username is the one `safe_username_from_email` derives from that
      e-mail, which is new to the table, and its names are the two parts of
      the display name. */
  lemma FirstSignInCreatesUser(idToken: Option<string>, clientId: string, check: Verification, users: seq<User>)
    requires Truthy(idToken) && check.Verified? && check.aud == Some(clientId)
    requires forall j :: 0 <= j < |users| ==> users[j].email != check.email
    ensures var (reply, after) := SignIn(idToken, clientId, check, users);
      && reply.SignedIn?
      && after == users + [reply.user]
      && reply.user.email == check.email
      && reply.user.username == Usernames.FreeUsername(check.email, TakenUsernames(users))
      && reply.user.username !in TakenUsernames(users)
      && (reply.user.firstName, reply.user.lastName) == NameParts(check.name)
  {
  }

  /** A returning user keeps their row, username and e-mail; the names are
      updated from the display name's parts, and no other row is touched. */
  lemma ReturningSignInUpdatesInPlace(idToken: Option<string>, clientId: string, check: Verification, users: seq<User>, k: nat)
    requires Truthy(idToken) && check.Verified? && check.aud == Some(clientId)
    requires k < |users| && users[k].email == check.email
    requires forall j :: 0 <= j < k ==> users[j].email != check.email
    ensures var (reply, after) := SignIn(idToken, clientId, check, users);
      && reply.SignedIn?
      && |after| == |users|
      && after[k] == reply.user
      && reply.user.username == users[k].username
      && reply.user == UpdateNames(users[k], NameParts(check.name).0, NameParts(check.name).1)
      && (forall j :: 0 <= j < |users| && j != k ==> after[j] == users[j])
  {
    assert FindByEmail(users, check.email) == Some(k);
  }
}

=== FILE: api_client.dfy ===
/** The authenticated HTTP client of frontend/src/api.js: a request
    interceptor that attaches the stored access token, and a response
    interceptor that answers a 401 with at most one token refresh and one
    retry. The backend and the refresh endpoint are parameters: `server`
    answers a request as sent, `refresher` answers a refresh token posted to `/token/refresh/`. */
module ApiClient {
  import opened Common
  import opened Browser

  const AuthHeader := "Authorization"

  /** An axios request config: the path, the headers and the `_retry` marker. */
  datatype Request = Request(path: string, headers: map<string, string>, retry: bool)

  /** The outcome of the raw `axios.post` to the refresh endpoint: a response
      carrying `data.access` (possibly missing or `null`), or a thrown error. */
  datatype RefreshReply = Refreshed(access: JsValue) | RefreshFailed

  function Bearer(token: string): (h: string)
  {
    "Bearer " + token
  }

  /** The request interceptor: with a truthy stored access token the request
      carries `Authorization: Bearer <token>`; otherwise it is left as it is. */
  function AttachAuth(storage: Storage, req: Request): (r: Request)
    ensures r.path == req.path && r.retry == req.retry
    ensures Truthy(GetItem(storage, AccessKey)) ==>
      AuthHeader in r.headers && r.headers[AuthHeader] == Bearer(storage[AccessKey])
    ensures !Truthy(GetItem(storage, AccessKey)) ==> r == req
    ensures forall h :: h != AuthHeader ==> (h in r.headers <==> h in req.headers)
    ensures forall h :: h != AuthHeader && h in r.headers ==> r.headers[h] == req.headers[h]
  {
    var token := GetItem(storage, AccessKey);
    if Truthy(token) then req.(headers := req.headers[AuthHeader := Bearer(token.value)]) else req
  }

  /** Attaching twice is attaching once. */
  lemma AttachAuthIdempotent(storage: Storage, req: Request)
    ensures AttachAuth(storage, AttachAuth(storage, req)) == AttachAuth(storage, req)
  {
  }

  /** What the response interceptor decided for one failed request:
      the page state afterwards, the config as marked, the refresh token sent
      to the refresh endpoint (if a refresh was attempted), and the request
      re-issued through the client (if any). With no re-issue the caller's
      promise rejects with the original error. */
  datatype Interception = Interception(env: Env, marked: Request, refreshedWith: Option<string>, reissue: Option<Request>)

  /** The response interceptor's error handler for error `e` on config `config`. */
  function Intercept(env: Env, e: HttpError, config: Request, refresher: string -> RefreshReply): (i: Interception)
    // Anything but a first 401 passes through untouched.
    ensures !IsUnauthorized(e) || config.retry ==> i == Interception(env, config, None, None)
    // A first 401 marks the request before anything else happens.
    ensures IsUnauthorized(e) && !config.retry ==> i.marked == config.(retry := true)
    // Without a stored refresh token the error is passed on and nothing else changes.
    ensures IsUnauthorized(e) && !config.retry && !Truthy(GetItem(env.storage, RefreshKey)) ==>
      i.env == env && i.refreshedWith == None && i.reissue == None
    // With one, exactly that token is sent to the refresh endpoint.
    ensures IsUnauthorized(e) && !config.retry && Truthy(GetItem(env.storage, RefreshKey)) ==>
      i.refreshedWith == Some(env.storage[RefreshKey])
    // A successful refresh stores the new access token and re-issues the marked request with it.
    ensures i.refreshedWith.Some? && refresher(i.refreshedWith.value).Refreshed? ==>
      var token := StoredText(refresher(i.refreshedWith.value).access);
      && i.env == env.(storage := env.storage[AccessKey := token])
      && i.reissue == Some(i.marked.(headers := i.marked.headers[AuthHeader := Bearer(token)]))
    // A failed refresh drops both tokens, keeps every other key, and sends the page to the login screen.
    ensures i.refreshedWith.Some? && refresher(i.refreshedWith.value).RefreshFailed? ==>
      i.env == Env(env.storage - {AccessKey, RefreshKey}, Some(LoginPage)) && i.reissue == None
    // Only a first attempt is ever re-issued, and the re-issue carries the marker.
    ensures i.reissue.Some? ==> !config.retry && i.reissue.value.retry && i.reissue.value.path == config.path
  {
    if IsUnauthorized(e) && !config.retry then
      var marked := config.(retry := true);
      var refresh := GetItem(env.storage, RefreshKey);
      if Truthy(refresh) then
        match refresher(refresh.value)
        case Refreshed(access) =>
          var token := StoredText(access);
          Interception(env.(storage := env.storage[AccessKey := token]), marked, Some(refresh.value),
                       Some(marked.(headers := marked.headers[AuthHeader := Bearer(token)])))
        case RefreshFailed =>
          Interception(Env(env.storage - {AccessKey, RefreshKey}, Some(LoginPage)), marked, Some(refresh.value), None)
      else Interception(env, marked, None, None)
    else Interception(env, config, None, None)
  }

  /** Everything one call through the client did: the page state afterwards,
      how the caller's promise settled, the requests sent to the backend
      (after the request interceptor) and the refresh tokens sent to the
      refresh endpoint. */
  datatype Trace<+B> = Trace(env: Env, result: Reply<B>, sent: seq<Request>, refreshes: seq<string>)

  /** `api(req)`: send, and on failure let the response interceptor decide;
      a re-issued request goes through the whole client again. The refresh
      itself goes to `refresher`, not through the client, so it is never
      intercepted and never appears among the sent requests. */
  function Dispatch<B>(env: Env, req: Request, server: Request -> Reply<B>, refresher: string -> RefreshReply)
    : (t: Trace<B>)
    ensures 1 <= |t.sent| <= 2 && |t.refreshes| <= 1
    ensures |t.sent| == 2 ==> |t.refreshes| == 1 && !req.retry && t.sent[1].retry
    ensures req.retry ==> |t.sent| == 1 && t.refreshes == []
    ensures t.sent[0] == AttachAuth(env.storage, req)
    ensures forall k :: 0 <= k < |t.sent| ==> t.sent[k].path == req.path
    ensures t.result.Failed? && |t.sent| == 1 ==> t.result == server(t.sent[0])
    ensures t.result.Answered? ==> t.result == server(t.sent[|t.sent| - 1])
    decreases if req.retry then 0 else 1
  {
    var sent := AttachAuth(env.storage, req);
    match server(sent)
    case Answered(body) => Trace(env, Answered(body), [sent], [])
    case Failed(e) =>
      var i := Intercept(env, e, sent, refresher);
      var tried := if i.refreshedWith.Some? then [i.refreshedWith.value] else [];
      match i.reissue
      case None => Trace(i.env, Failed(e), [sent], tried)
      case Some(again) =>
        var t := Dispatch(i.env, again, server, refresher);
        Trace(t.env, t.result, [sent] + t.sent, tried + t.refreshes)
  }

  /** A response that is not a 401, or a 401 on a request already marked
      `_retry`, reaches the caller as it is: no refresh, no storage change,
      no redirect. */
  lemma PassThrough<B>(env: Env, req: Request, server: Request -> Reply<B>, refresher: string -> RefreshReply)
    requires var first := server(AttachAuth(env.storage, req));
      first.Answered? || !IsUnauthorized(first.error) || req.retry
    ensures var t := Dispatch(env, req, server, refresher);
      t == Trace(env, server(AttachAuth(env.storage, req)), [AttachAuth(env.storage, req)], [])
  {
  }

  /** A 401 with no refresh token stored rejects with that same 401 and
      leaves storage and location alone. */
  lemma UnauthorizedWithoutRefreshToken<B>(env: Env, req: Request, server: Request -> Reply<B>, refresher: string -> RefreshReply)
    requires !req.retry && !Truthy(GetItem(env.storage, RefreshKey))
    requires var first := server(AttachAuth(env.storage, req));
      first.Failed? && IsUnauthorized(first.error)
    ensures var t := Dispatch(env, req, server, refresher);
      && t.env == env && t.refreshes == [] && |t.sent| == 1
      && t.result == server(AttachAuth(env.storage, req))
  {
  }

  /** A failed refresh rejects with the original 401, removes both tokens,
      keeps every other key, and redirects to the login page. */
  lemma RefreshFailureLogsOut<B>(env: Env, req: Request, server: Request -> Reply<B>, refresher: string -> RefreshReply)
    requires !req.retry && Truthy(GetItem(env.storage, RefreshKey))
    requires refresher(env.storage[RefreshKey]).RefreshFailed?
    requires var first := server(AttachAuth(env.storage, req));
      first.Failed? && IsUnauthorized(first.error)
    ensures var t := Dispatch(env, req, server, refresher);
      && t.result == server(AttachAuth(env.storage, req))
      && t.env.redirect == Some(LoginPage)
      && t.env.storage.Keys == env.storage.Keys - {AccessKey, RefreshKey}
      && (forall k :: k in t.env.storage ==> t.env.storage[k] == env.storage[k])
      && t.refreshes == [env.storage[RefreshKey]] && |t.sent| == 1
  {
  }

  /** A successful refresh stores the new access token and re-issues the
      request exactly once, carrying the new token; the caller sees the
      re-issued request's outcome, even when that is another 401. */
  lemma RefreshSuccessRetriesOnce<B>(env: Env, req: Request, server: Request -> Reply<B>, refresher: string -> RefreshReply)
    requires !req.retry && Truthy(GetItem(env.storage, RefreshKey))
    requires refresher(env.storage[RefreshKey]).Refreshed?
    requires var first := server(AttachAuth(env.storage, req));
      first.Failed? && IsUnauthorized(first.error)
    ensures var t := Dispatch(env, req, server, refresher);
      var token := StoredText(refresher(env.storage[RefreshKey]).access);
      && |t.sent| == 2 && t.refreshes == [env.storage[RefreshKey]]
      && t.sent[1].retry && t.sent[1].headers[AuthHeader] == Bearer(token)
      && t.env.storage == env.storage[AccessKey := token]
      && t.env.redirect == env.redirect
      && t.result == server(t.sent[1])
  {
    var token := StoredText(refresher(env.storage[RefreshKey]).access);
    var t := Dispatch(env, req, server, refresher);
    assert t.sent[1].headers[AuthHeader] == Bearer(token);
  }
}

=== FILE: browser.dfy ===
/** The browser facilities the client touches: `localStorage` as a map from
    keys to strings, `window.location.href` as a redirect target, and the
    shape of an axios error as the client code inspects it. */
module Browser {
  import opened Common

  type Storage = map<string, string>

  /** The page's persistent state: its storage and the page it was sent to
      through `window.location.href`, if any. */
  datatype Env = Env(storage: Storage, redirect: Option<string>)

  const LoginPage := "/login"

  /** Storage keys the client uses. */
  const AccessKey := "access"
  const RefreshKey := "refresh"
  const UserNameKey := "userName"

  /** `localStorage.getItem(key)`: `null` when the key is absent. */
  function GetItem(s: Storage, key: string): (v: Option<string>)
    ensures v.Some? <==> key in s
    ensures v.Some? ==> v.value == s[key]
  {
    if key in s then Some(s[key]) else None
  }

  /** A reply field the client passes on as a string without checking it:
      a missing property (`undefined`), JSON `null`, or a string. */
  datatype JsValue = Undefined | Null | Str(s: string)

  /** `String(v)`, the conversion both `localStorage.setItem` and a template
      literal apply: `undefined` and `null` become the texts "undefined" and "null". */
  function StoredText(v: JsValue): (t: string)
    ensures v.Str? ==> t == v.s
    ensures v.Undefined? ==> t == "undefined"
    ensures v.Null? ==> t == "null"
  {
    match v
    case Undefined => "undefined"
    case Null => "null"
    case Str(s) => s
  }

  /** The parts of an axios error the client reads: `response.status`,
      `response.data.detail`, `message`, `name` and `code`. */
  datatype HttpError = HttpError(
    status: Option<int>, detail: Option<string>, message: Option<string>,
    name: Option<string>, code: Option<string>)

  /** How an awaited request settles: with a response body, or by throwing. */
  datatype Reply<+B> = Answered(body: B) | Failed(error: HttpError)

  /** A request aborted through its `AbortController` (the client's own timeout). */
  predicate IsCancelled(e: HttpError)
  {
    e.name == Some("CanceledError") || e.code == Some("ERR_CANCELED")
  }

  predicate IsUnauthorized(e: HttpError)
  {
    e.status == Some(401)
  }
}

=== FILE: common.dfy ===
/** Values shared by the browser client and the Django backend. */
module Common {

  /** An optional value: `None` stands for Python's `None` or a missing
      dictionary key, and for JavaScript's `null`/`undefined` where the
      client only tests the value's truthiness (`Browser.JsValue` keeps the
      two apart where they are converted to text). */
  datatype Option<+T> = None | Some(value: T)

  /** Truthiness of an optional string. JavaScript and Python agree here:
      a missing value and the empty string are falsy, every other string is truthy. */
  predicate Truthy(o: Option<string>)
  {
    o.Some? && o.value != ""
  }

  /** The value of `a || b || fallback` over optional strings. */
  function FirstTruthy(a: Option<string>, b: Option<string>, fallback: string): (r: string)
    ensures Truthy(a) ==> r == a.value
    ensures !Truthy(a) && Truthy(b) ==> r == b.value
    ensures !Truthy(a) && !Truthy(b) ==> r == fallback
  {
    if Truthy(a) then a.value else if Truthy(b) then b.value else fallback
  }
}

=== FILE: js_text.dfy ===
/** JavaScript's `String.prototype.trim`, which decides whether a search term is blank. */
module JsText {

  /** The characters `trim` removes: ECMAScript WhiteSpace (tab, vertical
      tab, form feed, space, no-break space, byte-order mark and every space
      separator) and LineTerminator (line feed, carriage return, line and
      paragraph separators). */
  predicate IsSpace(c: char)
  {
    || c == '\t' || c == '\n' || c == '\U{000B}' || c == '\U{000C}' || c == '\r' || c == ' '
    || c == '\U{00A0}' || c == '\U{1680}' || ('\U{2000}' <= c <= '\U{200A}')
    || c == '\U{2028}' || c == '\U{2029}' || c == '\U{202F}' || c == '\U{205F}'
    || c == '\U{3000}' || c == '\U{FEFF}'
  }

  /** A string `trim` reduces to nothing. */
  predicate Blank(s: string)
  {
    forall i :: 0 <= i < |s| ==> IsSpace(s[i])
  }

  function TrimStart(s: string): (r: string)
    ensures |r| <= |s| && r == s[|s| - |r|..]
    ensures r != "" ==> !IsSpace(r[0])
    ensures Blank(s[..|s| - |r|])
  {
    if s != "" && IsSpace(s[0]) then
      var r := TrimStart(s[1..]);
      assert s[..|s| - |r|] == [s[0]] + s[1..][..|s| - 1 - |r|];
      r
    else s
  }

  function TrimEnd(s: string): (r: string)
    ensures |r| <= |s| && r == s[..|r|]
    ensures r != "" ==> !IsSpace(r[|r| - 1])
    ensures Blank(s[|r|..])
  {
    if s != "" && IsSpace(s[|s| - 1]) then
      var r := TrimEnd(s[..|s| - 1]);
      assert s[|r|..] == s[..|s| - 1][|r|..] + [s[|s| - 1]];
      r
    else s
  }

  /** `s.trim()`: `s` without leading and trailing spaces. */
  function Trim(s: string): (r: string)
    ensures r != "" ==> !IsSpace(r[0]) && !IsSpace(r[|r| - 1])
  {
    TrimEnd(TrimStart(s))
  }

  /** `s.trim()` is non-empty exactly when `s` has a character that is not a space. */
  lemma TrimEmptyIffBlank(s: string)
    ensures Trim(s) == "" <==> Blank(s)
  {
    var t := TrimStart(s);
    if t == "" {
      assert s[..|s| - |t|] == s;
    } else {
      var e := TrimEnd(t);
      assert e != "" by {
        assert t == e + t[|e|..];
        assert Blank(t[|e|..]);
      }
      assert !Blank(s) by {
        assert s[|s| - |t|..][0] == t[0];
      }
    }
  }
}

=== FILE: listing.dfy ===
/** The news listing of frontend/src/components/News.jsx as an event-driven
    state machine. Every `load` takes a fresh request id from a counter; its
    completion may touch the visible state (`articles`, `err`, `loading`)
    only while that id is still the newest. Issuing and completing are
    separate transitions, so completions may arrive in any order. */
module Listing {
  import opened Common
  import opened Browser
  import NewsProxy

  type Article = NewsProxy.Article

  const NoSearchResults := "No articles found for your search. Try a different keyword."
  const NoHeadlines := "No recent headlines available. Try selecting a different category or country."
  const TimedOut := "Request timed out. Please try again."
  const LoadFailed := "Failed to load news"
  const EnterSearchTerm := "Please enter a search term"

  /** The optional overrides a caller passes to `load(opts)`. */
  datatype LoadOpts = LoadOpts(country: Option<string>, category: Option<string>)

  const NoOpts := LoadOpts(None, None)

  /** One issued load: its request id, the search text its closure captured,
      and the query parameters it sent. */
  datatype Call = Call(id: nat, q: string, params: map<string, string>)

  /** The listing's state: the request counter, the visible state, and the
      page state a 401 clears. */
  datatype State = State(counter: nat, loading: bool, err: Option<string>, articles: seq<Article>, env: Env)

  /** What `api.get("/news/")` settled with: the response's `articles`
      (possibly missing), or a thrown error. */
  type Outcome = Reply<Option<seq<Article>>>

  /** The state on mount: nothing loaded yet, and the loading flag on. */
  function Initial(env: Env): (s: State)
  {
    State(0, true, None, [], env)
  }

  /** The query parameters of a load: `q` only when non-empty, and country
      and category from the overrides when truthy, otherwise from the
      component state. */
  function Params(q: string, country: string, category: string, opts: LoadOpts): (p: map<string, string>)
    ensures "q" in p <==> q != ""
    ensures "q" in p ==> p["q"] == q
    ensures "country" in p <==> Truthy(opts.country) || country != ""
    ensures "country" in p ==> p["country"] == FirstTruthy(opts.country, Some(country), "")
    ensures "category" in p <==> Truthy(opts.category) || category != ""
    ensures "category" in p ==> p["category"] == FirstTruthy(opts.category, Some(category), "")
    ensures p.Keys <= {"q", "country", "category"}
  {
    var c := FirstTruthy(opts.country, Some(country), "");
    var k := FirstTruthy(opts.category, Some(category), "");
    var p: map<string, string> := map[];
    var p := if q != "" then p["q" := q] else p;
    var p := if c != "" then p["country" := c] else p;
    if k != "" then p["category" := k] else p
  }

  /** The start of `load`: bump the counter, take the new value as this
      call's id, raise the loading flag and clear the error. The article
      list stays until a completion replaces it. */
  function Issue(s: State, q: string, country: string, category: string, opts: LoadOpts): (r: (State, Call))
    ensures r.1.id == s.counter + 1 && r.0.counter == r.1.id
    ensures r.0.loading && r.0.err == None
    ensures r.0.articles == s.articles && r.0.env == s.env
    ensures r.1.q == q && r.1.params == Params(q, country, category, opts)
  {
    var id := s.counter + 1;
    (s.(counter := id, loading := true, err := None), Call(id, q, params := Params(q, country, category, opts)))
  }

  /** The message for a fresh empty result: it depends on whether the load searched. */
  function EmptyMessage(q: string): (m: string)
    ensures q != "" <==> m == NoSearchResults
    ensures q == "" <==> m == NoHeadlines
  {
    if q != "" then NoSearchResults else NoHeadlines
  }

  /** The message for a fresh failure: the timeout text for an aborted
      request, else the server's `detail`, else the error's `message`, else
      a generic text. */
  function FailureMessage(e: HttpError): (m: string)
    ensures IsCancelled(e) ==> m == TimedOut
    ensures !IsCancelled(e) && Truthy(e.detail) ==> m == e.detail.value
    ensures !IsCancelled(e) && !Truthy(e.detail) && Truthy(e.message) ==> m == e.message.value
    ensures !IsCancelled(e) && !Truthy(e.detail) && !Truthy(e.message) ==> m == LoadFailed
  {
    if IsCancelled(e) then TimedOut else FirstTruthy(e.detail, e.message, LoadFailed)
  }

  /** A call is fresh while its id is still the counter's value. */
  predicate Fresh(s: State, call: Call)
  {
    call.id == s.counter
  }

  /** The end of `load` for `call`, settled with `outcome`. */
  function Complete(s: State, call: Call, outcome: Outcome): (s': State)
    ensures s'.counter == s.counter
    // A stale completion leaves the visible state as it is.
    ensures !Fresh(s, call) ==> s'.articles == s.articles && s'.err == s.err && s'.loading == s.loading
    // Only a fresh completion clears the loading flag.
    ensures Fresh(s, call) ==> !s'.loading
    // A fresh non-empty list replaces the articles and clears the error.
    ensures Fresh(s, call) && outcome.Answered? && outcome.body.Some? && |outcome.body.value| > 0 ==>
      s'.articles == outcome.body.value && s'.err == None
    // A fresh empty or missing list empties the articles and explains why.
    ensures Fresh(s, call) && outcome.Answered? && (outcome.body.None? || |outcome.body.value| == 0) ==>
      s'.articles == [] && s'.err == Some(EmptyMessage(call.q))
    // A fresh failure keeps the articles and reports the error.
    ensures Fresh(s, call) && outcome.Failed? ==>
      s'.articles == s.articles && s'.err == Some(FailureMessage(outcome.error))
    // A 401 logs out whether or not the call is stale; nothing else touches the page state.
    ensures outcome.Failed? && IsUnauthorized(outcome.error) ==> s'.env == Env(map[], Some(LoginPage))
    ensures !(outcome.Failed? && IsUnauthorized(outcome.error)) ==> s'.env == s.env
  {
    match outcome
    case Answered(list) =>
      if !Fresh(s, call) then s
      else if list.Some? && |list.value| > 0 then s.(articles := list.value, err := None, loading := false)
      else s.(articles := [], err := Some(EmptyMessage(call.q)), loading := false)
    case Failed(e) =>
      var s1 := if Fresh(s, call) then s.(err := Some(FailureMessage(e))) else s;
      var s2 := if IsUnauthorized(e) then s1.(env := Env(map[], Some(LoginPage))) else s1;
      if Fresh(s, call) then s2.(loading := false) else s2
  }

  /** What the user sees. */
  datatype View = View(loading: bool, err: Option<string>, articles: seq<Article>)

  function Visible(s: State): (v: View)
  {
    View(s.loading, s.err, s.articles)
  }

  // ----- Runs: issues and completions interleaved in any order -----

  /** An event: a new load, or the completion of the `index`-th issued load.
      A completion naming a load that was never issued is ignored. */
  datatype Event =
    | Load(q: string, country: string, category: string, opts: LoadOpts)
    | Settle(index: nat, outcome: Outcome)

  /** The state together with every load issued so far, in issue order. */
  datatype Run = Run(state: State, calls: seq<Call>)

  function Step(r: Run, e: Event): (r': Run)
    ensures e.Settle? ==> r'.calls == r.calls && r'.state.counter == r.state.counter
  {
    match e
    case Load(q, country, category, opts) =>
      var (s, call) := Issue(r.state, q, country, category, opts);
      Run(s, r.calls + [call])
    case Settle(index, outcome) =>
      if index < |r.calls| then Run(Complete(r.state, r.calls[index], outcome), r.calls) else r
  }

  function Execute(r: Run, events: seq<Event>): (r': Run)
    decreases |events|
  {
    if events == [] then r else Execute(Step(r, events[0]), events[1..])
  }

  lemma {:induction false} ExecuteAppend(r: Run, a: seq<Event>, b: seq<Event>)
    ensures Execute(r, a + b) == Execute(Execute(r, a), b)
    decreases |a|
  {
    if a == [] {
      assert a + b == b;
    } else {
      assert (a + b)[0] == a[0];
      assert (a + b)[1..] == a[1..] + b;
      ExecuteAppend(Step(r, a[0]), a[1..], b);
    }
  }

  /** The k-th issued load has id k + 1 and the counter equals the number of loads. */
  ghost predicate Numbered(r: Run)
  {
    && r.state.counter == |r.calls|
    && forall k :: 0 <= k < |r.calls| ==> r.calls[k].id == k + 1
  }

  /** Every run from mount numbers its loads 1, 2, 3, ... so no two loads share an id. */
  lemma {:induction false} ExecuteNumbers(r: Run, events: seq<Event>)
    requires Numbered(r)
    ensures Numbered(Execute(r, events))
    decreases |events|
  {
    if events != [] {
      ExecuteNumbers(Step(r, events[0]), events[1..]);
    }
  }

  /** Request ids of a run from mount are pairwise distinct. */
  lemma IdsAreUnique(env: Env, events: seq<Event>, j: nat, k: nat)
    requires var r := Execute(Run(Initial(env), []), events); j < k < |r.calls|
    ensures var r := Execute(Run(Initial(env), []), events); r.calls[j].id < r.calls[k].id
  {
    ExecuteNumbers(Run(Initial(env), []), events);
  }

  predicate IsSettle(e: Event)
  {
    e.Settle?
  }

  /** The completions among `events` that belong to the newest load of `r`. */
  function NewestOnly(r: Run, events: seq<Event>): (out: seq<Event>)
    ensures |out| <= |events|
  {
    if events == [] then []
    else
      var e := events[0];
      var keep := e.Settle? && e.index < |r.calls| && Fresh(r.state, r.calls[e.index]);
      (if keep then [e] else []) + NewestOnly(r, events[1..])
  }

  /** `NewestOnly` keeps exactly the completions of the newest load. */
  lemma {:induction false} NewestOnlyKeeps(r: Run, events: seq<Event>)
    ensures forall e :: e in NewestOnly(r, events) <==>
      e in events && e.Settle? && e.index < |r.calls| && Fresh(r.state, r.calls[e.index])
    decreases |events|
  {
    if events != [] {
      NewestOnlyKeeps(r, events[1..]);
      assert events == [events[0]] + events[1..];
    }
  }

  /** Last-issued wins: once no further load is issued, what the user sees
      is what the completions of the newest load alone would have made of
      it; completions of superseded loads, whenever they arrive, change nothing visible. */
  lemma {:induction false} LastIssuedWins(r: Run, events: seq<Event>)
    requires forall i :: 0 <= i < |events| ==> IsSettle(events[i])
    ensures Visible(Execute(r, events).state) == Visible(Execute(r, NewestOnly(r, events)).state)
    ensures Execute(r, events).state.counter == r.state.counter
    decreases |events|
  {
    if events != [] {
      var e := events[0];
      var r1 := Step(r, e);
      LastIssuedWins(r1, events[1..]);
      assert NewestOnly(r1, events[1..]) == NewestOnly(r, events[1..]) by {
        SameNewest(r, r1, events[1..]);
      }
      var keep := e.Settle? && e.index < |r.calls| && Fresh(r.state, r.calls[e.index]);
      if keep {
        assert NewestOnly(r, events) == [e] + NewestOnly(r, events[1..]);
        assert Execute(r, NewestOnly(r, events)) == Execute(r1, NewestOnly(r, events[1..]));
      } else {
        assert NewestOnly(r, events) == NewestOnly(r, events[1..]);
        assert Visible(r1.state) == Visible(r.state);
        InvisibleStart(r1, r, NewestOnly(r, events[1..]));
      }
    }
  }

  /** Filtering depends only on the loads issued and on the counter. */
  lemma {:induction false} SameNewest(r: Run, r': Run, events: seq<Event>)
    requires r'.calls == r.calls && r'.state.counter == r.state.counter
    ensures NewestOnly(r', events) == NewestOnly(r, events)
    decreases |events|
  {
    if events != [] {
      SameNewest(r, r', events[1..]);
    }
  }

  /** Completions keep the loads issued and the counter. */
  lemma {:induction false} SettlesKeepCalls(r: Run, events: seq<Event>)
    requires forall i :: 0 <= i < |events| ==> IsSettle(events[i])
    ensures Execute(r, events).calls == r.calls && Execute(r, events).state.counter == r.state.counter
    decreases |events|
  {
    if events != [] {
      SettlesKeepCalls(Step(r, events[0]), events[1..]);
    }
  }

  /** Two runs that agree on loads, counter and visible state stay in
      agreement on the visible state under the same completions. */
  lemma {:induction false} InvisibleStart(r: Run, r': Run, events: seq<Event>)
    requires r'.calls == r.calls && r'.state.counter == r.state.counter
    requires Visible(r'.state) == Visible(r.state)
    ensures Visible(Execute(r', events).state) == Visible(Execute(r, events).state)
    decreases |events|
  {
    if events != [] {
      var e := events[0];
      InvisibleStart(Step(r, e), Step(r', e), events[1..]);
    }
  }

  /** While the newest load has not settled, the page shows the loading
      flag, no error, and the articles it showed when that load was issued,
      whatever superseded loads do meanwhile. */
  lemma NewestUnsettledKeepsLoading(r: Run, events: seq<Event>)
    requires r.state.loading && r.state.err == None
    requires forall i :: 0 <= i < |events| ==> IsSettle(events[i])
    requires NewestOnly(r, events) == []
    ensures Visible(Execute(r, events).state) == Visible(r.state)
  {
    LastIssuedWins(r, events);
  }

  /** The loading flag goes down in one step only through the completion of
      the newest load. */
  lemma LoadingClearsOnlyWhenFresh(r: Run, e: Event)
    requires r.state.loading && !Step(r, e).state.loading
    ensures e.Settle? && e.index < |r.calls| && Fresh(r.state, r.calls[e.index])
  {
  }

  /** After any run from mount, once no further load is issued, the
      completions still to come show only what the newest load's
      completions alone would show, and they issue nothing. */
  lemma LastIssuedWinsAfter(env: Env, before: seq<Event>, settles: seq<Event>)
    requires forall i :: 0 <= i < |settles| ==> IsSettle(settles[i])
    ensures var r := Execute(Run(Initial(env), []), before);
      var all := Execute(Run(Initial(env), []), before + settles);
      && Visible(all.state) == Visible(Execute(r, NewestOnly(r, settles)).state)
      && all.calls == r.calls && all.state.counter == r.state.counter
  {
    var r := Execute(Run(Initial(env), []), before);
    ExecuteAppend(Run(Initial(env), []), before, settles);
    LastIssuedWins(r, settles);
    SettlesKeepCalls(r, settles);
  }

  /** The country switches from "us" to "gb" while the "us" load is in
      flight; the "gb" load answers first and the "us" one afterwards. */
  function CountrySwitch(us: seq<Article>, gb: seq<Article>): (events: seq<Event>)
    ensures |events| == 4
  {
    [ Load("", "us", "general", LoadOpts(None, None)),
      Load("", "us", "general", LoadOpts(Some("gb"), None)),
      Settle(1, Answered(Some(gb))),
      Settle(0, Answered(Some(us))) ]
  }

  /** In the country switch, the page shows no articles until the "gb"
      answer and the "gb" articles from then on: at no point of the run are
      the "us" articles shown. */
  lemma SupersededCountryNeverShown(env: Env, us: seq<Article>, gb: seq<Article>)
    requires |us| > 0 && |gb| > 0 && us != gb
    ensures var r := Execute(Run(Initial(env), []), CountrySwitch(us, gb));
      && |r.calls| == 2 && "country" in r.calls[1].params && r.calls[1].params["country"] == "gb"
      && r.state.articles == gb && !r.state.loading && r.state.err == None
    ensures forall n :: 0 <= n <= 4 ==>
      var a := Execute(Run(Initial(env), []), CountrySwitch(us, gb)[..n]).state.articles;
      (a == [] || a == gb) && a != us
  {
    var events := CountrySwitch(us, gb);
    var r0 := Run(Initial(env), []);
    var r1 := Step(r0, events[0]);
    var r2 := Step(r1, events[1]);
    var r3 := Step(r2, events[2]);
    var r4 := Step(r3, events[3]);
    assert r2.calls[1].params["country"] == "gb";
    assert r1.state.articles == [] && r2.state.articles == [];
    assert r3.state.articles == gb;
    assert r4.state.articles == gb;
    forall n | 0 <= n <= 4
      ensures Execute(r0, events[..n]) == [r0, r1, r2, r3, r4][n]
    {
      var k := 0;
      while k < n
        invariant 0 <= k <= n
        invariant Execute(r0, events[..n]) == Execute([r0, r1, r2, r3, r4][k], events[k..n])
      {
        assert events[k..n][0] == events[k];
        assert events[k..n][1..] == events[k + 1..n];
        k := k + 1;
      }
      assert events[n..n] == [];
    }
    assert events[..4] == events;
  }
}

=== FILE: login.dfy ===
/** The sign-in page of frontend/src/components/Login.jsx: what it does with
    the identity provider's answer and with the backend's reply. The Google
    widget and the backend call are foreign; their results are inputs. */
module Login {
  import opened Common
  import opened Browser

  const HomePage := "/"
  const MissingTokens := "Invalid response from server - missing tokens"
  const LoginFailed := "Login failed"
  const ProviderFailed := "Google login failed"

  /** The parts of the backend's sign-in reply the page reads. Only the
      truthiness of `access` is read, so a `null` access is `None`; the
      refresh token is stored unchecked, so it keeps `null` apart from missing. */
  datatype Tokens = Tokens(access: Option<string>, refresh: JsValue)
  datatype UserInfo = UserInfo(name: Option<string>)
  datatype SignInData = SignInData(tokens: Option<Tokens>, user: Option<UserInfo>)

  /** The page: the page state, the error shown, where the router was sent,
      and the `id_token`s posted to the backend so far. */
  datatype Screen = Screen(env: Env, err: Option<string>, navigatedTo: Option<string>, posted: seq<Option<string>>)

  /** The reply carries a truthy access token. */
  predicate HasAccess(d: SignInData)
  {
    d.tokens.Some? && Truthy(d.tokens.value.access)
  }

  /** `onSuccess`: post the credential, then store the tokens (and the user's
      name when there is one) and go home, or show why not. `reply` is how
      the backend call settled. */
  function OnSuccess(v: Screen, credential: Option<string>, reply: Reply<SignInData>): (w: Screen)
    ensures w.posted == v.posted + [credential]
    ensures w.env.redirect == v.env.redirect
    // Home is reached exactly when the reply carried an access token.
    ensures w.navigatedTo == Some(HomePage) <==> (reply.Answered? && HasAccess(reply.body)) || v.navigatedTo == Some(HomePage)
    ensures reply.Answered? && HasAccess(reply.body) ==>
      && w.err == None && w.navigatedTo == Some(HomePage)
      && GetItem(w.env.storage, AccessKey) == reply.body.tokens.value.access
      && GetItem(w.env.storage, RefreshKey) == Some(StoredText(reply.body.tokens.value.refresh))
      && (reply.body.user.Some? && Truthy(reply.body.user.value.name) ==>
            GetItem(w.env.storage, UserNameKey) == reply.body.user.value.name)
      && (forall k :: k in v.env.storage && k !in {AccessKey, RefreshKey, UserNameKey} ==>
            k in w.env.storage && w.env.storage[k] == v.env.storage[k])
      && w.env.storage.Keys <= v.env.storage.Keys + {AccessKey, RefreshKey, UserNameKey}
    // The user's name is written only when it is truthy.
    ensures reply.Answered? && HasAccess(reply.body) && !(reply.body.user.Some? && Truthy(reply.body.user.value.name)) ==>
      w.env.storage == v.env.storage[AccessKey := reply.body.tokens.value.access.value][RefreshKey := StoredText(reply.body.tokens.value.refresh)]
    // Without an access token nothing is stored.
    ensures reply.Answered? && !HasAccess(reply.body) ==>
      w.env == v.env && w.err == Some(MissingTokens) && w.navigatedTo == v.navigatedTo
    // A thrown error is shown by its detail, else its message, else a generic text.
    ensures reply.Failed? ==> (w.env == v.env && w.navigatedTo == v.navigatedTo
      && w.err == Some(FirstTruthy(reply.error.detail, reply.error.message, LoginFailed)))
  {
    var v := v.(err := None, posted := v.posted + [credential]);
    match reply
    case Failed(e) => v.(err := Some(FirstTruthy(e.detail, e.message, LoginFailed)))
    case Answered(data) =>
      if HasAccess(data) then
        var tokens := data.tokens.value;
        var s := v.env.storage[AccessKey := tokens.access.value][RefreshKey := StoredText(tokens.refresh)];
        var s := if data.user.Some? && Truthy(data.user.value.name) then s[UserNameKey := data.user.value.name.value] else s;
        v.(env := v.env.(storage := s), navigatedTo := Some(HomePage))
      else v.(err := Some(MissingTokens))
  }

  /** `onError`: the identity provider failed; show it, contact nobody. */
  function OnError(v: Screen): (w: Screen)
    ensures w.posted == v.posted && w.env == v.env && w.navigatedTo == v.navigatedTo
    ensures w.err == Some(ProviderFailed)
  {
    v.(err := Some(ProviderFailed))
  }

  /** A previous attempt's error never survives a successful sign-in. */
  lemma SuccessClearsEarlierError(v: Screen, credential: Option<string>, reply: Reply<SignInData>)
    requires reply.Answered? && HasAccess(reply.body)
    ensures OnSuccess(OnError(v), credential, reply).err == None
  {
  }

  /** A reply with an access token but no refresh token still counts as a
      sign-in: the literal text "undefined" is stored as the refresh token,
      and it is truthy, so a later 401 will try to refresh with it. */
  lemma MissingRefreshStoresUndefined(v: Screen, credential: Option<string>, access: string, user: Option<UserInfo>)
    requires access != ""
    ensures var w := OnSuccess(v, credential, Answered(SignInData(Some(Tokens(Some(access), Undefined)), user)));
      && w.navigatedTo == Some(HomePage)
      && GetItem(w.env.storage, RefreshKey) == Some("undefined")
      && Truthy(GetItem(w.env.storage, RefreshKey))
  {
  }

  /** A `null` refresh token is stored as the truthy text "null". */
  lemma NullRefreshStoresNull(v: Screen, credential: Option<string>, access: string, user: Option<UserInfo>)
    requires access != ""
    ensures var w := OnSuccess(v, credential, Answered(SignInData(Some(Tokens(Some(access), Null)), user)));
      && w.navigatedTo == Some(HomePage)
      && GetItem(w.env.storage, RefreshKey) == Some("null")
      && Truthy(GetItem(w.env.storage, RefreshKey))
  {
  }
}

=== FILE: news_page.dfy ===
/** The event handlers of frontend/src/components/News.jsx that start loads:
    the Search button, the debounced search box, refresh, the country and
    category pickers, and the one-time initial load. A handler's `load`
    closure sees the page state of the render it was created in, so the
    search text it sends is the text from before the handler ran. */
module NewsPage {
  import opened Common
  import opened Browser
  import opened Listing
  import JsText

  /** The component's filter state, its flags, and the listing. */
  datatype Page = Page(q: string, country: string, category: string, hasSearched: bool, didInit: bool, listing: State)

  /** The page on mount. */
  function Mount(env: Env): (p: Page)
  {
    Page("", "us", "general", false, false, Listing.Initial(env))
  }

  /** `load(opts)` as the render of `p` created it. */
  function LoadFrom(p: Page, opts: LoadOpts): (r: (Page, Call))
    ensures r.1.q == p.q && r.1.id == p.listing.counter + 1
    ensures r.0.listing.counter == r.1.id
  {
    var (s, call) := Issue(p.listing, p.q, p.country, p.category, opts);
    (p.(listing := s), call)
  }

  /** What the start of `load` does to a page and nothing more: the counter
      goes up by one, loading goes on, the error is cleared, and the shown
      articles, the storage and the one-time-init guard are kept. */
  predicate LoadStarted(p: Page, p': Page)
  {
    && p'.didInit == p.didInit
    && p'.listing.counter == p.listing.counter + 1
    && p'.listing.loading && p'.listing.err == None
    && p'.listing.articles == p.listing.articles
    && p'.listing.env == p.listing.env
  }

  /** The Search button: a search text that trims to nothing loads nothing
      and asks for a term; any other text marks the page as searched and loads. */
  function HandleSearch(p: Page): (r: (Page, Option<Call>))
    ensures r.1.Some? <==> !JsText.Blank(p.q)
    ensures r.1.None? ==> r.0 == p.(listing := p.listing.(err := Some(EnterSearchTerm)))
    ensures r.1.Some? ==> r.0.hasSearched && r.1.value.q == p.q && "q" in r.1.value.params
    ensures r.1.Some? ==> r.0.listing.counter == p.listing.counter + 1 && r.0.listing.loading
    // The load has no overrides, and the page keeps its text and filters.
    ensures r.1.Some? ==> r.1.value == LoadFrom(p, NoOpts).1 && r.1.value.params["q"] == p.q
    ensures r.1.Some? ==> r.0.q == p.q && r.0.country == p.country && r.0.category == p.category
    ensures r.1.Some? ==> LoadStarted(p, r.0)
  {
    JsText.TrimEmptyIffBlank(p.q);
    if JsText.Trim(p.q) != "" then
      var (p1, call) := LoadFrom(p.(hasSearched := true), NoOpts);
      (p1, Some(call))
    else
      (p.(listing := p.listing.(err := Some(EnterSearchTerm))), None)
  }

  /** The debounce timer firing after the quiet period: it loads only when
      the trimmed search text has at least one character. */
  function DebounceFire(p: Page): (r: (Page, Option<Call>))
    ensures r.1.Some? <==> !JsText.Blank(p.q)
    ensures r.1.None? ==> r.0 == p
    ensures r.1.Some? ==> r.0.hasSearched && r.1.value.q == p.q && r.0.listing.counter == p.listing.counter + 1
    ensures r.1.Some? ==> r.1.value == LoadFrom(p, NoOpts).1
    ensures r.1.Some? ==> r.0.q == p.q && r.0.country == p.country && r.0.category == p.category
    ensures r.1.Some? ==> LoadStarted(p, r.0)
  {
    JsText.TrimEmptyIffBlank(p.q);
    if |JsText.Trim(p.q)| >= 1 then
      var (p1, call) := LoadFrom(p.(hasSearched := true), NoOpts);
      (p1, Some(call))
    else (p, None)
  }

  /** The Search button and the debounce timer agree on which texts load,
      and when they load they send the same request. */
  lemma SearchAndDebounceAgree(p: Page)
    ensures HandleSearch(p).1.Some? <==> DebounceFire(p).1.Some?
    ensures HandleSearch(p).1.Some? ==> HandleSearch(p) == DebounceFire(p)
  {
  }

  /** The refresh button: clear the search text and the searched flag, and
      load with the closure's filters. */
  function HandleRefresh(p: Page): (r: (Page, Call))
    ensures r.0.q == "" && !r.0.hasSearched
    ensures r.0.country == p.country && r.0.category == p.category
    ensures r.1 == LoadFrom(p, NoOpts).1
    ensures r.1.q == p.q && r.0.listing.loading && r.0.listing.counter == r.1.id
    ensures LoadStarted(p, r.0)
  {
    var (p1, call) := LoadFrom(p, NoOpts);
    (p1.(q := "", hasSearched := false), call)
  }

  /** Picking a country: it becomes the page's country and the load's
      `country` parameter immediately, without waiting for a re-render. */
  function HandleCountryChange(p: Page, code: string): (r: (Page, Call))
    ensures r.0.country == code && r.0.q == "" && !r.0.hasSearched && r.0.category == p.category
    ensures code != "" ==> "country" in r.1.params && r.1.params["country"] == code
    ensures r.1 == LoadFrom(p, LoadOpts(Some(code), None)).1
    ensures r.1.q == p.q && r.0.listing.loading && r.0.listing.counter == r.1.id
    ensures LoadStarted(p, r.0)
  {
    var (p1, call) := LoadFrom(p, LoadOpts(Some(code), None));
    (p1.(country := code, q := "", hasSearched := false), call)
  }

  /** Picking a category: it becomes the page's category and the load's
      `category` parameter immediately. */
  function HandleCategoryChange(p: Page, category: string): (r: (Page, Call))
    ensures r.0.category == category && r.0.q == "" && !r.0.hasSearched && r.0.country == p.country
    ensures category != "" ==> "category" in r.1.params && r.1.params["category"] == category
    ensures r.1 == LoadFrom(p, LoadOpts(None, Some(category))).1
    ensures r.1.q == p.q && r.0.listing.loading && r.0.listing.counter == r.1.id
    ensures LoadStarted(p, r.0)
  {
    var (p1, call) := LoadFrom(p, LoadOpts(None, Some(category)));
    (p1.(category := category, q := "", hasSearched := false), call)
  }

  /** The mount effect: the first run loads US general headlines and sets
      the guard; every later run does nothing. */
  function InitEffect(p: Page): (r: (Page, Option<Call>))
    ensures p.didInit ==> r == (p, None)
    ensures !p.didInit ==> (r.0.didInit && r.1.Some?
      && r.1.value.params == Params(p.q, p.country, p.category, LoadOpts(Some("us"), Some("general"))))
  {
    if p.didInit then (p, None)
    else
      var (p1, call) := LoadFrom(p.(didInit := true), LoadOpts(Some("us"), Some("general")));
      (p1, Some(call))
  }

  /** However often the effect runs, only the first run loads. */
  lemma InitLoadsOnce(p: Page)
    ensures InitEffect(InitEffect(p).0).1 == None
    ensures InitEffect(InitEffect(p).0).0 == InitEffect(p).0
  {
  }

  /** On a fresh mount the initial load asks for US general headlines. */
  lemma MountLoadsHeadlines(env: Env)
    ensures var r := InitEffect(Mount(env));
      && r.1.Some? && r.1.value.id == 1
      && r.1.value.params == map["country" := "us", "category" := "general"]
  {
    var r := InitEffect(Mount(env));
    var p := r.1.value.params;
    assert p.Keys == {"country", "category"};
  }
}

=== FILE: news_proxy.dfy ===
/** The backend's news endpoint (`NewsView.get` in backend/app/views.py):
    which newsapi.org endpoint and parameters it asks for, how it normalises
    the articles that come back, and the status it replies with. The call to
    newsapi.org is a foreign call; its reply is an input here. */
module NewsProxy {
  import opened Common
  import Text

  const TopHeadlines := "https://newsapi.org/v2/top-headlines"
  const Everything := "https://newsapi.org/v2/everything"
  const DefaultCountry := "us"
  const PageSize := 20

  /** Categories newsapi.org accepts as the `category` filter of top headlines. */
  const AllowedCategories: set<string> :=
    {"business", "entertainment", "general", "health", "science", "sports", "technology"}

  const ApiKeyMissing := "NEWS_API_KEY missing on server. Please set NEWS_API_KEY in your .env file."
  const UnexpectedPrefix := "Unexpected error: "

  /** A query-string value as passed to `requests`: text or the integer page size. */
  datatype Param = Str(s: string) | Number(n: int)

  /** The upstream request: endpoint and query parameters. */
  datatype Upstream = Upstream(url: string, params: map<string, Param>)

  /** An article as newsapi.org sends it; each field may be absent. */
  datatype RawSource = RawSource(name: Option<string>)
  datatype RawArticle = RawArticle(
    title: Option<string>, description: Option<string>, url: Option<string>,
    urlToImage: Option<string>, source: Option<RawSource>, publishedAt: Option<string>)

  /** An article as the backend returns it to the browser. */
  datatype Article = Article(
    title: string, description: Option<string>, url: string,
    image: Option<string>, source: Option<string>, publishedAt: Option<string>)

  /** The `articles` entry of the decoded body: absent (read as `[]`), a
      list of article objects, or a value the comprehension cannot walk
      (`null`, or a list with an entry that is not an object). `reason` is
      the text of the `TypeError` or `AttributeError` that walking it raises. */
  datatype ArticlesField =
    | NoArticles
    | ArticleList(list: seq<RawArticle>)
    | Unusable(reason: string)

  /** The decoded JSON object of an upstream reply: whether it has an `error`
      key (with its printed value) and its `articles` entry. */
  datatype UpstreamData = UpstreamData(error: Option<string>, articles: ArticlesField)

  /** What `requests.get` produced: a `RequestException` with its message, or
      a reply. A 200 body that is not JSON makes `r.json()` raise requests'
      `JSONDecodeError`, itself a `RequestException`, so it is a `RequestFailed`. */
  datatype UpstreamReply =
    | RequestFailed(reason: string)
    | Replied(status: nat, text: string, data: UpstreamData)

  /** The view's reply to the browser: an error status with its `detail`,
      or a 200 body with `count` and `articles`. */
  datatype NewsReply =
    | Failure(status: nat, detail: string)
    | Articles(count: nat, articles: seq<Article>)

  /** The upstream request for the query parameters `q`, `country` and
      `category` of the incoming request (absent ones are `None`). */
  function PlanUpstream(q: Option<string>, country: Option<string>, category: Option<string>, apiKey: string)
    : (u: Upstream)
    ensures "apiKey" in u.params && u.params["apiKey"] == Str(apiKey)
    ensures "pageSize" in u.params && u.params["pageSize"] == Number(PageSize)
    ensures !Truthy(q) ==> u.url == TopHeadlines
    ensures !Truthy(q) ==> ("country" in u.params
      && u.params["country"] == Str(if country.Some? then country.value else DefaultCountry))
    ensures !Truthy(q) && Truthy(category) && category.value in AllowedCategories ==>
      u.params.Keys == {"country", "apiKey", "pageSize", "category"} && u.params["category"] == Str(category.value)
    ensures !Truthy(q) && Truthy(category) && category.value !in AllowedCategories ==>
      u.params.Keys == {"country", "apiKey", "pageSize", "q"} && u.params["q"] == Str(category.value)
    ensures !Truthy(q) && !Truthy(category) ==> u.params.Keys == {"country", "apiKey", "pageSize"}
    ensures Truthy(q) ==> u.url == Everything
    ensures Truthy(q) ==> (u.params.Keys == {"q", "sortBy", "language", "apiKey", "pageSize"}
      && u.params["sortBy"] == Str("publishedAt") && u.params["language"] == Str("en"))
    ensures Truthy(q) && Truthy(category) ==> u.params["q"] == Str(q.value + " " + category.value)
    ensures Truthy(q) && !Truthy(category) ==> u.params["q"] == Str(q.value)
  {
    if !Truthy(q) then
      var c := if country.Some? then country.value else DefaultCountry;
      var params := map["country" := Str(c), "apiKey" := Str(apiKey), "pageSize" := Number(PageSize)];
      var params := if Truthy(category) && category.value in AllowedCategories then params["category" := Str(category.value)] else params;
      var params := if Truthy(category) && category.value !in AllowedCategories then params["q" := Str(category.value)] else params;
      Upstream(TopHeadlines, params)
    else
      var terms := if Truthy(category) then q.value + " " + category.value else q.value;
      Upstream(Everything, map["q" := Str(terms), "sortBy" := Str("publishedAt"), "language" := Str("en"),
                               "apiKey" := Str(apiKey), "pageSize" := Number(PageSize)])
  }

  /** A category filter is never silently dropped: it reaches newsapi.org
      either as `category` or inside the search terms `q`. */
  lemma CategoryAlwaysForwarded(q: Option<string>, country: Option<string>, category: Option<string>, apiKey: string)
    requires Truthy(category)
    ensures var u := PlanUpstream(q, country, category, apiKey);
      || ("category" in u.params && u.params["category"] == Str(category.value))
      || ("q" in u.params && u.params["q"].Str? && category.value <= u.params["q"].s[|u.params["q"].s| - |category.value|..])
  {
    var u := PlanUpstream(q, country, category, apiKey);
    if Truthy(q) {
      var s := q.value + " " + category.value;
      assert s[|s| - |category.value|..] == category.value;
    }
  }

  /** Articles the endpoint keeps: those with a truthy `title` and `url`. */
  predicate Keeps(a: RawArticle)
  {
    Truthy(a.title) && Truthy(a.url)
  }

  /** One kept article in the browser's shape. */
  function Normalize(a: RawArticle): (b: Article)
    requires Keeps(a)
    ensures b.title == a.title.value && b.url == a.url.value
    ensures b.description == a.description && b.publishedAt == a.publishedAt
    ensures b.image == a.urlToImage
    ensures b.source == (if a.source.Some? then a.source.value.name else None)
  {
    Article(a.title.value, a.description, a.url.value, a.urlToImage,
            if a.source.Some? then a.source.value.name else None, a.publishedAt)
  }

  /** The list comprehension over the upstream articles. */
  function NormalizeAll(raw: seq<RawArticle>): (out: seq<Article>)
    ensures |out| <= |raw|
    ensures forall i :: 0 <= i < |raw| && Keeps(raw[i]) ==> Normalize(raw[i]) in out
    ensures forall b :: b in out ==> exists i :: 0 <= i < |raw| && Keeps(raw[i]) && b == Normalize(raw[i])
  {
    if raw == [] then []
    else
      var rest := NormalizeAll(raw[1..]);
      assert forall i :: 1 <= i < |raw| ==> raw[i] == raw[1..][i - 1];
      if Keeps(raw[0]) then [Normalize(raw[0])] + rest else rest
  }

  /** Normalisation keeps order: it maps a concatenation piecewise. */
  lemma {:induction false} NormalizeAllAppend(a: seq<RawArticle>, b: seq<RawArticle>)
    ensures NormalizeAll(a + b) == NormalizeAll(a) + NormalizeAll(b)
  {
    if a == [] {
      assert a + b == b;
    } else {
      assert (a + b)[0] == a[0];
      assert (a + b)[1..] == a[1..] + b;
      NormalizeAllAppend(a[1..], b);
    }
  }

  /** The number of articles the endpoint keeps. */
  function KeptCount(raw: seq<RawArticle>): (n: nat)
  {
    if raw == [] then 0 else (if Keeps(raw[0]) then 1 else 0) + KeptCount(raw[1..])
  }

  /** Exactly the kept articles come out, one each. */
  lemma {:induction false} NormalizeAllLength(raw: seq<RawArticle>)
    ensures |NormalizeAll(raw)| == KeptCount(raw)
  {
    if raw != [] {
      NormalizeAllLength(raw[1..]);
    }
  }

  /** `NewsView.get`: the upstream request made (none when the API key is
      missing) and the reply. `reply` is what the upstream call produced and
      is consulted only when a request was made. */
  function Get(q: Option<string>, country: Option<string>, category: Option<string>, apiKey: string, reply: UpstreamReply)
    : (r: (Option<Upstream>, NewsReply))
    ensures apiKey == "" <==> r.0.None?
    ensures apiKey == "" ==> r.1 == Failure(500, ApiKeyMissing)
    ensures r.0.Some? ==> r.0.value == PlanUpstream(q, country, category, apiKey)
    ensures apiKey != "" && reply.RequestFailed? ==>
      r.1 == Failure(502, "News API request error: " + reply.reason)
    ensures apiKey != "" && reply.Replied? && reply.status != 200 ==>
      r.1 == Failure(502, "News API returned status " + Text.Decimal(reply.status) + ": " + reply.text)
    ensures apiKey != "" && reply.Replied? && reply.status == 200 && reply.data.error.Some? ==>
      r.1 == Failure(502, "News API error: " + reply.data.error.value)
    // Articles the comprehension cannot walk end in the catch-all 500.
    ensures apiKey != "" && reply.Replied? && reply.status == 200 && reply.data.error.None? && reply.data.articles.Unusable? ==>
      r.1 == Failure(500, UnexpectedPrefix + reply.data.articles.reason)
    // A 200 reply without `error` and with usable articles is always a listing, and only such a reply is.
    ensures r.1.Articles? <==>
      apiKey != "" && reply.Replied? && reply.status == 200 && reply.data.error.None? && !reply.data.articles.Unusable?
    ensures r.1.Articles? ==> r.1.count == |r.1.articles|
    ensures r.1.Articles? && reply.data.articles.NoArticles? ==> r.1.articles == []
    ensures r.1.Articles? && reply.data.articles.ArticleList? ==> r.1.articles == NormalizeAll(reply.data.articles.list)
  {
    if apiKey == "" then (None, Failure(500, ApiKeyMissing))
    else
      var u := PlanUpstream(q, country, category, apiKey);
      match reply
      case RequestFailed(reason) => (Some(u), Failure(502, "News API request error: " + reason))
      case Replied(status, text, data) =>
        if status != 200 then
          (Some(u), Failure(502, "News API returned status " + Text.Decimal(status) + ": " + text))
        else if data.error.Some? then
          (Some(u), Failure(502, "News API error: " + data.error.value))
        else
          match data.articles
          case Unusable(reason) => (Some(u), Failure(500, UnexpectedPrefix + reason))
          case NoArticles => (Some(u), Articles(0, []))
          case ArticleList(list) =>
            var articles := NormalizeAll(list);
            (Some(u), Articles(|articles|, articles))
  }
}

=== FILE: text.dfy ===
/** The few Python `str` operations the backend relies on: `str(n)` for a
    natural number, `s.split(sep)` with an explicit one-character separator,
    and `sep.join(parts)`. */
module Text {

  /** The decimal digit character for `d`. */
  function Digit(d: nat): (c: char)
    requires d < 10
    ensures '0' <= c <= '9'
  {
    ['0', '1', '2', '3', '4', '5', '6', '7', '8', '9'][d]
  }

  /** Python's `str(n)` for a natural number: its decimal digits, no leading zero. */
  function Decimal(n: nat): (s: string)
    ensures |s| >= 1
    ensures n >= 10 ==> |s| >= 2
    ensures forall i :: 0 <= i < |s| ==> '0' <= s[i] <= '9'
  {
    if n < 10 then [Digit(n)] else Decimal(n / 10) + [Digit(n % 10)]
  }

  /** Distinct numbers print differently, so `base + str(i)` never repeats. */
  lemma {:induction false} DecimalInjective(a: nat, b: nat)
    requires Decimal(a) == Decimal(b)
    ensures a == b
  {
    if a < 10 && b < 10 {
      assert Digit(a) == Decimal(a)[0] == Decimal(b)[0] == Digit(b);
    } else if a >= 10 && b >= 10 {
      var da, db := Decimal(a), Decimal(b);
      assert da[|da| - 1] == Digit(a % 10);
      assert db[|db| - 1] == Digit(b % 10);
      assert a % 10 == b % 10;
      assert da[..|da| - 1] == Decimal(a / 10);
      assert db[..|db| - 1] == Decimal(b / 10);
      DecimalInjective(a / 10, b / 10);
    }
  }

  /** Index of the first occurrence of `c` in `s`. */
  function IndexOf(s: string, c: char): (k: nat)
    requires c in s
    ensures k < |s| && s[k] == c
    ensures c !in s[..k]
  {
    if s[0] == c then 0
    else
      assert s == [s[0]] + s[1..];
      var k := IndexOf(s[1..], c);
      assert s[..k + 1] == [s[0]] + s[1..][..k];
      k + 1
  }

  /** Python's `s.split(sep)` for a one-character separator: the maximal
      separator-free pieces between consecutive separators, empty pieces included. */
  function Split(s: string, sep: char): (parts: seq<string>)
    ensures |parts| >= 1
    ensures forall i :: 0 <= i < |parts| ==> sep !in parts[i]
    decreases |s|
  {
    if sep !in s then [s]
    else
      var k := IndexOf(s, sep);
      [s[..k]] + Split(s[k + 1..], sep)
  }

  /** Python's `sep.join(parts)`. */
  function Join(sep: string, parts: seq<string>): (s: string)
  {
    if |parts| == 0 then ""
    else if |parts| == 1 then parts[0]
    else parts[0] + sep + Join(sep, parts[1..])
  }

  /** The first piece of a split is the text before the first separator, or
      all of `s` when there is none. */
  lemma SplitHead(s: string, sep: char)
    ensures sep in s ==> Split(s, sep)[0] == s[..IndexOf(s, sep)]
    ensures sep !in s ==> Split(s, sep) == [s]
  {
  }

  /** Joining the pieces of a split with the same separator gives back the input. */
  lemma {:induction false} JoinSplit(s: string, sep: char)
    ensures Join([sep], Split(s, sep)) == s
    decreases |s|
  {
    if sep in s {
      var k := IndexOf(s, sep);
      var rest := s[k + 1..];
      JoinSplit(rest, sep);
      var tail := Split(rest, sep);
      assert Split(s, sep) == [s[..k]] + tail;
      assert ([s[..k]] + tail)[1..] == tail;
      assert s == s[..k] + [sep] + rest;
    }
  }

  /** `sep.join(s.split(sep)[1:])` is everything after the first separator. */
  lemma SplitTailJoin(s: string, sep: char)
    requires sep in s
    ensures Join([sep], Split(s, sep)[1..]) == s[IndexOf(s, sep) + 1..]
  {
    var k := IndexOf(s, sep);
    var tail := Split(s[k + 1..], sep);
    assert Split(s, sep)[1..] == tail;
    JoinSplit(s[k + 1..], sep);
  }
}

=== FILE: usernames.dfy ===
/** Username derivation for accounts created on first Google sign-in
    (`safe_username_from_email` in backend/app/views.py). The user table is
    represented by the finite set of usernames already taken. */
module Usernames {
  import Text

  /** Usernames keep at most this many characters of the e-mail's local part. */
  const MaxBaseLength := 20

  /** The fallback base when nothing usable is left of the local part. */
  const Fallback := "user"

  /** The characters the regular expression `[^a-zA-Z0-9._-]` does not remove. */
  predicate Allowed(c: char)
  {
    ('a' <= c <= 'z') || ('A' <= c <= 'Z') || ('0' <= c <= '9') || c == '.' || c == '_' || c == '-'
  }

  /** `email.split("@")[0]`: the part before the first `@`. */
  function LocalPart(email: string): (p: string)
    ensures '@' !in p
    ensures '@' in email ==> p == email[..Text.IndexOf(email, '@')]
    ensures '@' !in email ==> p == email
  {
    Text.SplitHead(email, '@');
    Text.Split(email, '@')[0]
  }

  /** `re.sub(r"[^a-zA-Z0-9._-]", "", s)`: drop every character that is not allowed. */
  function Sanitize(s: string): (r: string)
    ensures |r| <= |s|
    ensures forall i :: 0 <= i < |r| ==> Allowed(r[i])
    ensures (forall i :: 0 <= i < |s| ==> Allowed(s[i])) ==> r == s
  {
    if s == [] then []
    else if Allowed(s[0]) then [s[0]] + Sanitize(s[1..])
    else Sanitize(s[1..])
  }

  /** One character survives exactly when it is allowed. */
  lemma SanitizeChar(c: char)
    ensures Sanitize([c]) == (if Allowed(c) then [c] else [])
  {
  }

  /** Sanitising works character by character: the text is filtered piecewise,
      so every allowed character is kept and their order is preserved. With
      `SanitizeChar` this determines `Sanitize` on every text. */
  lemma {:induction false} SanitizeAppend(a: string, b: string)
    ensures Sanitize(a + b) == Sanitize(a) + Sanitize(b)
    decreases |a|
  {
    if a == [] {
      assert a + b == b;
    } else {
      assert (a + b)[0] == a[0];
      assert (a + b)[1..] == a[1..] + b;
      SanitizeAppend(a[1..], b);
    }
  }

  /** A disallowed character between two allowed ones is removed and the
      two are kept, in order: `"a!b"` becomes `"ab"`. */
  lemma SanitizeDropsBetween()
    ensures Sanitize("a!b") == "ab"
  {
    SanitizeAppend("a!", "b");
    SanitizeAppend("a", "!");
    SanitizeChar('a');
    SanitizeChar('!');
    SanitizeChar('b');
    assert "a!" + "b" == "a!b";
    assert "a" + "!" == "a!";
  }

  /** The base username: the sanitised local part cut to 20 characters, or
      `"user"` when that is empty. */
  function UsernameBase(email: string): (b: string)
    ensures 1 <= |b| <= MaxBaseLength
    ensures forall i :: 0 <= i < |b| ==> Allowed(b[i])
    ensures Sanitize(LocalPart(email)) != "" ==> b <= Sanitize(LocalPart(email))
    ensures Sanitize(LocalPart(email)) != "" ==>
      |b| == (if |Sanitize(LocalPart(email))| <= MaxBaseLength then |Sanitize(LocalPart(email))| else MaxBaseLength)
    ensures Sanitize(LocalPart(email)) == "" ==> b == Fallback
  {
    var cleaned := Sanitize(LocalPart(email));
    var cut := if |cleaned| <= MaxBaseLength then cleaned else cleaned[..MaxBaseLength];
    if cut == "" then Fallback else cut
  }

  /** An address whose local part is already a valid username (allowed
      characters only, 1 to 20 of them) keeps it unchanged as the base. */
  lemma BaseOfCleanLocalPart(email: string)
    requires 1 <= |LocalPart(email)| <= MaxBaseLength
    requires forall i :: 0 <= i < |LocalPart(email)| ==> Allowed(LocalPart(email)[i])
    ensures UsernameBase(email) == LocalPart(email)
  {
  }

  /** A local part with no allowed character at all falls back to `"user"`. */
  lemma BaseFallback(email: string)
    requires forall i :: 0 <= i < |LocalPart(email)| ==> !Allowed(LocalPart(email)[i])
    ensures UsernameBase(email) == Fallback
  {
    NothingAllowedSanitizesToEmpty(LocalPart(email));
  }

  lemma {:induction false} NothingAllowedSanitizesToEmpty(s: string)
    requires forall i :: 0 <= i < |s| ==> !Allowed(s[i])
    ensures Sanitize(s) == ""
  {
    if s != [] {
      NothingAllowedSanitizesToEmpty(s[1..]);
    }
  }

  /** The i-th candidate tried: the base itself, then `base + str(i)` for i = 1, 2, ... */
  function Candidate(base: string, i: nat): (c: string)
    ensures i == 0 ==> c == base
    ensures i > 0 ==> |c| > |base| && c[..|base|] == base && c[|base|..] == Text.Decimal(i)
  {
    if i == 0 then base else base + Text.Decimal(i)
  }

  /** Different attempts produce different candidates. */
  lemma CandidateInjective(base: string, i: nat, j: nat)
    requires Candidate(base, i) == Candidate(base, j)
    ensures i == j
  {
    if i != 0 && j != 0 {
      var a, b := Candidate(base, i), Candidate(base, j);
      assert a[|base|..] == Text.Decimal(i);
      assert b[|base|..] == Text.Decimal(j);
      Text.DecimalInjective(i, j);
    }
  }

  /** The candidates tried before attempt n. */
  ghost function Tried(base: string, n: nat): (tried: set<string>)
  {
    set j | 0 <= j < n :: Candidate(base, j)
  }

  lemma TriedGrows(base: string, n: nat)
    ensures Tried(base, n + 1) == Tried(base, n) + {Candidate(base, n)}
    ensures Candidate(base, n) !in Tried(base, n)
  {
    if Candidate(base, n) in Tried(base, n) {
      var j :| 0 <= j < n && Candidate(base, j) == Candidate(base, n);
      CandidateInjective(base, j, n);
    }
  }

  /** The least attempt number, from `from` on, whose candidate is free. The
      search ends because every taken candidate is passed at most once and
      the table is finite. */
  function FreeSuffix(base: string, taken: set<string>, from: nat): (i: nat)
    requires forall j :: 0 <= j < from ==> Candidate(base, j) in taken
    ensures from <= i
    ensures Candidate(base, i) !in taken
    ensures forall j :: 0 <= j < i ==> Candidate(base, j) in taken
    decreases |taken - Tried(base, from)|
  {
    if Candidate(base, from) !in taken then from
    else
      TriedGrows(base, from);
      assert taken - Tried(base, from + 1) == (taken - Tried(base, from)) - {Candidate(base, from)};
      FreeSuffix(base, taken, from + 1)
  }

  /** The username a new account receives, given the usernames already taken. */
  function FreeUsername(email: string, taken: set<string>): (username: string)
    ensures username !in taken
  {
    var base := UsernameBase(email);
    Candidate(base, FreeSuffix(base, taken, 0))
  }

  /** `safe_username_from_email`: try the base, then `base1`, `base2`, ...
      until one is not taken. */
  method SafeUsernameFromEmail(email: string, taken: set<string>) returns (username: string)
    ensures username !in taken
    ensures username == FreeUsername(email, taken)
  {
    var base := UsernameBase(email);
    var candidate := base;
    var i: nat := 1;
    ghost var tried: set<string> := {};
    while candidate in taken
      invariant 1 <= i
      invariant candidate == Candidate(base, i - 1)
      invariant tried == Tried(base, i - 1)
      invariant tried <= taken
      invariant forall j :: 0 <= j < i - 1 ==> Candidate(base, j) in taken
      decreases |taken - tried|
    {
      TriedGrows(base, i - 1);
      assert taken - (tried + {candidate}) == (taken - tried) - {candidate};
      tried := tried + {candidate};
      candidate := base + Text.Decimal(i);
      i := i + 1;
    }
    FreeSuffixIsLeast(base, taken, i - 1);
    username := candidate;
  }

  /** There is only one least free attempt number. */
  lemma FreeSuffixIsLeast(base: string, taken: set<string>, i: nat)
    requires Candidate(base, i) !in taken
    requires forall j :: 0 <= j < i ==> Candidate(base, j) in taken
    ensures FreeSuffix(base, taken, 0) == i
  {
  }
}
